=== FILE: README.md ===
# RoadLaw assistant: question-answering core in Dafny

This project models the retrieval-augmented question answering of the
traffic-rules assistant (ПДД РК). The model covers:

- **Lexical scorer** (`Scoring`). A rule earns 0.3 per keyword found in the
  lower-cased question, a flat 0.5 when some title token occurs in it, and a
  flat 0.2 when some content token occurs in it. The total is clamped to 1.0.
- **Lexical ranking** (`Ranking`, `simple_search`). Rules that score zero
  are dropped. The rest are stably sorted by relevance, highest first, and
  the first `n` are kept.
- **Semantic stage and fallback** (`Retrieval`, `chroma_search` and
  `search_pdd`). Documents returned by the vector store are mapped back to
  the first corpus rule they mention, with relevance `1 - min(distance, 1)`.
  When that yields nothing, the lexical ranking is used.
- **Answer composition** (`Composer`). This builds the sources, the context
  parts, the generated or extractive answer text, and the average-relevance
  confidence.
- **The `/ask` endpoint as a state machine** (`Service`). The state is the
  answer cache plus the hit and miss counters. The model covers validation,
  the normalised cache key, hit and miss handling, and the `/metrics`
  counters.
- **`prepare_documents`** (`Prepare`). Rule records become the parallel
  id, document and metadata lists.

`Text` holds the Python string operations the code relies on: `isspace`,
`lower`, `strip`, `split()`, `join` and substring `in`.

The two external services are inputs of each request. The vector store's
answer is an `Option<Response>`, where `None` means no client or a failed
query. The generated reply is an `Option<string>`, where `None` means no
client, a timeout, a quota error or another failure.

Relevance and confidence are `real`. The source sums Python floats, so
`0.3 + 0.3 + 0.3` there is `0.8999999999999999`, not `0.9`. The model uses
exact decimals, so a reported relevance or confidence can differ from the
source's in the last decimal place. The order of results and which of them
tie are the same for every sum of the values 0.3, 0.5 and 0.2 used here.

Two behaviours of the code are kept on purpose:

- A semantic hit's relevance is `1 - min(distance, 1.0)`, with no lower
  clamp on the distance. It exceeds 1 for a negative distance.
  `HitRelevance` keeps this formula and proves the value is at most 1 only
  for non-negative distances.
- A list of semantic hits whose relevances are all 0.0 is still used. This
  happens when the store sends no distances. Such a list does not fall back
  to the lexical search.

## Model

| member | source | states |
|---|---|---|
| Text.SplitTokens | main.py:149-152 | `str.split()` never yields an empty token, and no token contains whitespace |
| Text.SplitLosesOnlySpaces | main.py:149-152 | joined back together, the tokens are exactly the non-whitespace characters of the string, in order |
| Text.SplitJoin | main.py:149-152 | `split()` undoes `" ".join` on non-empty whitespace-free words |
| Text.SplitAtSpace | main.py:149-152 | every whitespace character separates tokens: splitting `a + [c] + b` at a whitespace `c` gives the tokens of `a` followed by those of `b`. Together with the single-word case this fixes `split()` on every string, including leading whitespace and runs of whitespace |
| Text.StripLower | main.py:101 | lower-casing commutes with stripping, because it neither creates nor removes whitespace |
| Text.StripShape | main.py:249 | a stripped question is no longer than the input and neither starts nor ends with whitespace |
| Text.StripIdempotent | main.py:249 | stripping twice is stripping once |
| Text.StripKeepsMiddle | main.py:249 | `strip` removes only leading and trailing whitespace: the result is a contiguous slice of the question, and every character before or after that slice is whitespace |
| Scoring.Score | main.py:144-158 | a rule's relevance lies in [0, 1], and a positive relevance is at least 0.2 |
| Scoring.KeywordHits | main.py:145-147 | the keyword count is zero exactly when no keyword's lower case occurs in the question, and equals the number of keywords exactly when all of them do |
| Scoring.AnyTokenOccurs | main.py:149-153 | the short-circuit scan over tokens answers true exactly when some token occurs in the question |
| Scoring.ScoreRule | main.py:134-158 | the loop over keywords plus the two flat bonuses and the clamp compute the declared score `min(0.3·hits + 0.5·[title] + 0.2·[content], 1.0)` |
| Scoring.ScoreZeroIff | main.py:144-155 | a rule scores zero exactly when no keyword, title token or content token occurs in the lower-cased question |
| Scoring.ScoreLowerBounds | main.py:145-158 | each signal raises the score: at least 0.3 per keyword hit up to the clamp, at least 0.5 with a title match, and at least 0.2 with a content match |
| Scoring.ScoreIgnoresCase | main.py:134 | a question and its lower case get the same score |
| Ranking.Scored | main.py:137-159 | every candidate is a rule of the corpus paired with its own score, which lies in (0, 1] |
| Ranking.ScoredComplete | main.py:137-159 | every rule of the corpus with a positive score is among the candidates, with that score |
| Ranking.ScoredAppend | main.py:137-159 | the loop visits the corpus in order: the candidates of `a + b` are those of `a` followed by those of `b`, duplicates kept |
| Ranking.ScoredSingle | main.py:155-159 | a single rule yields one candidate with its own score when that score is positive, and none when it is zero |
| Ranking.SortDescCorrect | main.py:162 | the sort is ordered by relevance, highest first, is a permutation of its input, and keeps input order within each relevance value |
| Ranking.Take | main.py:163 | the cut keeps a prefix of at most `n` entries, and all of them when there are fewer |
| Ranking.SimpleSearch | main.py:131-163 | at most `n` results, each a corpus rule with its own score in (0, 1], in non-increasing relevance |
| Ranking.SimpleSearchEmptyIff | main.py:155-163 | the lexical search is empty exactly when `n` is 0 or no rule of the corpus scores |
| Ranking.SimpleSearchStable | main.py:162-163 | for each relevance value, the results with that value are the first of the corpus-order rules that score it |
| Ranking.SimpleSearchCount | main.py:137-163 | the lexical search returns `min(n, k)` entries, where `k` counts the scored records with duplicates |
| Ranking.SimpleSearchCopies | main.py:137-163 | every entry is a scored record, none more often than it scored, and when `n >= k` every scored record comes back as often as it scored |
| Ranking.SimpleSearchComplete | main.py:161-163 | a scoring rule is left out only when `n` results were returned, each at least as relevant as that rule |
| Retrieval.HitRelevance | main.py:186 | a semantic relevance is never negative, is zero from distance 1 on, is positive below it, and is at most 1 for non-negative distances |
| Retrieval.FindRule | main.py:181-182 | the rule chosen for a document is the first corpus rule whose content or title occurs in it, and there is none only when no rule does |
| Retrieval.MapDocs | main.py:177-188 | the mapping gives at most one hit per document, each a corpus rule with non-negative relevance. Relevance is 0 when no distances are sent, and every document is mapped when each one mentions a rule. It raises exactly when a matched document has no distance |
| Retrieval.MapDocsHits | main.py:177-188 | when the mapping does not raise, hit `k` comes from the `k`-th document that mentions a rule: it is the first corpus rule that document mentions, with relevance `1 - min(distance, 1.0)` of that document's distance, in document order |
| Retrieval.MapDocsPointwise | main.py:179-186 | when every document mentions a rule, there is one hit per document, and hit `k` is document `k`'s first mentioned rule with the relevance of distance `k` |
| Retrieval.ChromaSearch | main.py:165-193 | with no store the hits are empty, and they are also empty when a matched document has no distance. There are never more hits than documents, and every hit is a corpus rule with non-negative relevance |
| Retrieval.ChromaSearchHits | main.py:177-189 | when every matched document has a distance, the hits are one per matched document, in document order, each the first rule that document mentions with the relevance of its distance |
| Retrieval.SearchPdd | main.py:195-204 | semantic hits are returned unchanged when there are any, and otherwise the result is exactly the lexical search. Every result is a corpus rule with non-negative relevance |
| Retrieval.SearchPddEmptyIff | main.py:195-204 | retrieval is empty exactly when the store gave no usable hit and no rule scores lexically |
| Retrieval.MissingDistanceFallsBack | main.py:183-204 | documents with an empty distance list make the mapping raise, and the answer is then the lexical search |
| Composer.Compose | main.py:270-341 | no results give the fixed not-found answer. Otherwise there is one source per result, copying section, id, title and relevance in order. The text is the generated reply when it is non-empty. Otherwise it is the fixed prefix followed by one `"title: content"` part per result, joined by newlines. It is never empty. The confidence is the capped mean relevance `Confidence(results)`, at most 1, and non-negative when the relevances are |
| Composer.FallbackQuotesEveryRule | main.py:331-332 | without a generated reply, the answer quotes every result's `"title: content"` part and so names every rule's title |
| Composer.ConfidenceIsAverage | main.py:283-335 | when every relevance lies in [0, 1], confidence equals the mean relevance and lies between the least and the greatest relevance |
| Service.Ask | main.py:245-346 | an empty or over-500-character stripped question gets a 400 and leaves the state alone. A cache hit returns the stored answer and adds one hit. A miss adds one miss and caches the composed answer under the key. Existing entries never change |
| Service.GetMetrics | main.py:231-242 | total queries are hits plus misses, and the hit rate lies in [0, 100]. The rate is 100 exactly when there are hits and no misses, and 0 exactly when there are no hits |
| Service.CacheKeyOfStripped | main.py:99-101 | the cache key is the lower-cased stripped question, whether or not it was stripped first |
| Service.CacheKeyIdempotent | main.py:101 | a cache key is its own key |
| Service.SameKeyHitsCache | main.py:258-262 | two questions that agree once lower-cased and stripped share an entry: after the first, the second is a hit with the same answer and one more hit, whatever the services say |
| Service.AskTwice | main.py:258-262 | asking the same question again returns the same answer from the cache and adds exactly one hit |
| Service.AskPreservesInvariant | main.py:259-277 | every request keeps the cache no larger than the miss count, every key normalised, and every cached confidence in [0, 1] |
| Service.RunAccounting | main.py:233-264 | across any sequence of requests, hits plus misses grow by exactly the number of accepted requests, and the invariant holds |
| Service.MetricsAfterRun | main.py:233-241 | from a fresh start, total queries equal the number of accepted requests and the cache size is at most the misses |
| Service.RejectedChangesNothing | main.py:249-255 | a rejected question gets status 400 and changes neither the cache nor the counters |
| Service.NoMatchIsNotFound | main.py:270-277 | a missed question that matches nothing gets the fixed not-found answer, with no sources and confidence 0, and that answer is cached |
| Prepare.PrepareDocuments | prepare_data.py:26-50 | three lists as long as the input, lined up with it: the rule's id, `"title. content"`, and its section, type, joined keywords and title |
| Prepare.DocumentStartsWithTitle | prepare_data.py:39 | every document starts with, and so contains, its rule's title |
| Prepare.KeywordsJoined | prepare_data.py:46 | the keyword metadata is empty for no keywords and is the keyword itself for one. Otherwise it is every keyword followed by `", "`, the last one excepted, so it contains every keyword and is two characters per gap longer than the keywords together |
| Prepare.StoredDocumentIsMatched | main.py:179-182 | a stored document returned verbatim by the store always maps back to some corpus rule |

## Left out

- Loading the corpus from JSON (`load_sample_data`, `load_pdd_data`) is file I/O. The corpus is an immutable `seq<Rule>` parameter.
- Missing fields of a rule record are not modelled. `simple_search` and `ask_question` read `title`, `content`, `section` and `id` with `rule.get` defaults such as `'Неизвестный раздел'`, and `prepare_documents` indexes `id`, `title`, `content`, `section` and `type` directly, and the mapping loop of `chroma_search` indexes `content` and `title` directly. Every `Rule` carries all of these. A missing `keywords` list, read everywhere with the default `[]`, behaves as an empty `keywords` sequence, which the model covers.
- The vector-store client, `get_collection`, `query`, `create_vector_db` and `test_search` belong to a foreign library. The store's reply is an input. `n_results` is passed to it but not enforced on the reply.
- The call to the generative model is an external network call. Its reply is an input, and the prompt text is not modelled.
- The MD5 digest in `get_cache_key` is left out. The key is the normalised string itself, which assumes the digest is injective.
- GetMetrics: the hit rate is not rounded to two decimals, because `round` on floats is formatting.
- The HTTP layer is not modelled. This covers CORS, the request and response classes, `/`, `/health`, `/docs` and server start-up. The catch-all 500 path is also left out, because only unmodelled exceptions reach it.
- Console logging is left out: the `print` calls for a failed store query, a cache hit, a generated reply, a generation error and an `/ask` failure (main.py lines 192, 261, 319-326 and 349) have no effect on any reply or counter.
- Concurrency is not modelled. The async handlers share global state, and the model serves requests one at a time.
- Text.LowerChar: lower-cases only Latin A-Z and the Cyrillic capitals U+0400 to U+042F. Python's `str.lower` covers all of Unicode, including multi-character results.
- Scoring.Score: uses exact decimal arithmetic instead of IEEE doubles.
- The concrete normalisation example with questions differing only in case and surrounding spaces is not a separate lemma. `Service.SameKeyHitsCache` states it for all such pairs.
- `app.py` (the chat front end), `test_api.py` (an HTTP smoke script) and `tests.py` (the test suite) are not part of this model.

=== FILE: composer.dfy ===
/** Answer composition (the miss path of `ask_question` in main.py, after
    retrieval): sources, context, the generated or extractive answer text and
    the confidence. The generative model is not modelled: its reply, if any,
    is an input. */
module Composer {
  import opened Text
  import opened Rules
  import opened Scoring

  const NotFoundText: string :=
    "В базе данных нет информации по этому вопросу. Пожалуйста, уточните вопрос или обратитесь к официальным источникам ПДД."
  const FallbackPrefix: string := "Найдено в ПДД РК:\n\n"
  const PartSeparator: string := "\n"

  /** One entry of an answer's `sources` list. */
  datatype Source = Source(section: string, id: string, title: string, relevance: real)

  /** The reply to a question, as returned and as cached. */
  datatype Answer = Answer(text: string, sources: seq<Source>, confidence: real)

  /** The fixed reply when retrieval found nothing. */
  const NotFound: Answer := Answer(NotFoundText, [], 0.0)

  function SourceOf(m: Match): Source {
    Source(m.rule.section, m.rule.id, m.rule.title, m.relevance)
  }

  /** `"{title}: {content}"` for one retrieved rule. */
  function ContextPart(m: Match): string {
    m.rule.title + ": " + m.rule.content
  }

  function ContextParts(results: seq<Match>): seq<string> {
    seq(|results|, i requires 0 <= i < |results| => ContextPart(results[i]))
  }

  /** The sum of the relevances, in order. */
  function TotalRelevance(results: seq<Match>): real
    decreases |results|
  {
    if results == [] then 0.0
    else TotalRelevance(results[..|results| - 1]) + results[|results| - 1].relevance
  }

  /** `min(total_relevance / len(results), 1.0)` */
  function Confidence(results: seq<Match>): real
    requires results != []
  {
    Min(TotalRelevance(results) / (|results| as real), 1.0)
  }

  /** The extractive answer used when no generated text is available. */
  function FallbackText(results: seq<Match>): string {
    FallbackPrefix + Join(ContextParts(results), PartSeparator)
  }

  /** A generated reply is used only when it is present and non-empty
      (Python's `if not answer`). */
  predicate Usable(generated: Option<string>) {
    generated.Some? && generated.value != []
  }

  /** The answer for the retrieved `results`: the fixed not-found reply when
      there are none; otherwise one source per result, in order, copying its
      rule's section, id and title and its relevance, the generated text or
      else the extractive one (never empty), and a confidence of at most 1
      that is non-negative whenever the relevances are. The extractive text
      is the fixed prefix followed by the context parts, one per line. */
  function Compose(results: seq<Match>, generated: Option<string>): (a: Answer)
    ensures results == [] ==> a == NotFound
    ensures results != [] ==> |a.sources| == |results|
    ensures results != [] ==> forall i :: 0 <= i < |results| ==>
      a.sources[i] == Source(results[i].rule.section, results[i].rule.id,
                             results[i].rule.title, results[i].relevance)
    ensures a.text != []
    ensures results != [] && Usable(generated) ==> a.text == generated.value
    ensures results != [] && !Usable(generated) ==> IsPrefix(FallbackPrefix, a.text)
    ensures results != [] && !Usable(generated) ==>
      a.text == FallbackPrefix + Join(ContextParts(results), PartSeparator)
    ensures results != [] ==> a.confidence == Confidence(results)
    ensures a.confidence <= 1.0
    ensures (forall i :: 0 <= i < |results| ==> results[i].relevance >= 0.0) ==> a.confidence >= 0.0
  {
    if results == [] then NotFound
    else
      var sources := seq(|results|, i requires 0 <= i < |results| => SourceOf(results[i]));
      var text := if Usable(generated) then generated.value else FallbackText(results);
      TotalNonNegative(results);
      Answer(text, sources, Confidence(results))
  }

  lemma ContainsExtend(a: string, s: string, t: string)
    requires Contains(s, t)
    ensures Contains(a + s, t)
  {
    var i := ContainsWitness(s, t);
    assert (a + s)[|a| + i..|a| + i + |t|] == s[i..i + |t|];
    ContainsAt(a + s, t, |a| + i);
  }

  /** Without a generated reply the answer quotes every retrieved rule as
      `"{title}: {content}"`, so in particular it names every rule's title. */
  lemma FallbackQuotesEveryRule(results: seq<Match>, generated: Option<string>, k: nat)
    requires k < |results| && !Usable(generated)
    ensures Contains(Compose(results, generated).text, ContextPart(results[k]))
    ensures Contains(Compose(results, generated).text, results[k].rule.title)
  {
    FallbackTextQuotes(results, k);
    assert Compose(results, generated).text == FallbackText(results);
  }

  lemma FallbackTextQuotes(results: seq<Match>, k: nat)
    requires k < |results|
    ensures Contains(FallbackText(results), ContextPart(results[k]))
    ensures Contains(FallbackText(results), results[k].rule.title)
  {
    var parts := ContextParts(results);
    JoinContainsEach(parts, PartSeparator, k);
    ContainsExtend(FallbackPrefix, Join(parts, PartSeparator), parts[k]);
    var r := results[k].rule;
    ContainsInfix([], r.title, ": " + r.content);
    assert [] + r.title + (": " + r.content) == ContextPart(results[k]);
    ContainsTransitive(FallbackText(results), ContextPart(results[k]), r.title);
  }

  lemma {:induction false} TotalNonNegative(results: seq<Match>)
    ensures (forall i :: 0 <= i < |results| ==> results[i].relevance >= 0.0) ==>
      TotalRelevance(results) >= 0.0
    decreases |results|
  {
    if results != [] {
      TotalNonNegative(results[..|results| - 1]);
    }
  }

  lemma MulStep(x: real, m: real)
    ensures x * (m + 1.0) == x * m + x
  {
  }

  lemma {:induction false} TotalBounds(results: seq<Match>, lo: real, hi: real)
    requires forall i :: 0 <= i < |results| ==> lo <= results[i].relevance <= hi
    ensures lo * (|results| as real) <= TotalRelevance(results) <= hi * (|results| as real)
    decreases |results|
  {
    if results != [] {
      var init := results[..|results| - 1];
      TotalBounds(init, lo, hi);
      var m := |init| as real;
      MulStep(lo, m);
      MulStep(hi, m);
      assert |results| as real == m + 1.0;
    }
  }

  lemma DivideBounds(t: real, n: real, lo: real, hi: real)
    requires n >= 1.0
    requires lo * n <= t <= hi * n
    ensures lo <= t / n <= hi
  {
  }

  /** The confidence is the average relevance: it lies between the least and
      the greatest relevance of the results (all within [0, 1]). */
  lemma ConfidenceIsAverage(results: seq<Match>, lo: real, hi: real)
    requires results != []
    requires 0.0 <= lo && hi <= 1.0
    requires forall i :: 0 <= i < |results| ==> lo <= results[i].relevance <= hi
    ensures lo <= Confidence(results) <= hi
    ensures Confidence(results) == TotalRelevance(results) / (|results| as real)
  {
    TotalBounds(results, lo, hi);
    var n := |results| as real;
    var t := TotalRelevance(results);
    DivideBounds(t, n, lo, hi);
  }
}

=== FILE: prepare.dfy ===
/** `prepare_documents` in prepare_data.py: the rule records turned into the
    three parallel lists handed to the vector store. */
module Prepare {
  import opened Text
  import opened Rules
  import opened Retrieval

  const KeywordSeparator: string := ", "

  /** The metadata stored next to each document. */
  datatype Metadata = Metadata(section: string, kind: string, keywords: string, title: string)

  /** The embedded text of a rule: `"{title}. {content}"`. */
  function DocumentText(rule: Rule): string {
    rule.title + ". " + rule.content
  }

  function MetadataOf(rule: Rule): Metadata {
    Metadata(rule.section, rule.kind, Join(rule.keywords, KeywordSeparator), rule.title)
  }

  /** The three lists are as long as the input and line up with it: entry `i`
      of each describes rule `i`, so input order is kept. */
  method PrepareDocuments(rules: seq<Rule>)
    returns (ids: seq<string>, documents: seq<string>, metadatas: seq<Metadata>)
    ensures |ids| == |rules| && |documents| == |rules| && |metadatas| == |rules|
    ensures forall i :: 0 <= i < |rules| ==> ids[i] == rules[i].id
    ensures forall i :: 0 <= i < |rules| ==> documents[i] == DocumentText(rules[i])
    ensures forall i :: 0 <= i < |rules| ==> metadatas[i] == MetadataOf(rules[i])
  {
    ids, documents, metadatas := [], [], [];
    var i := 0;
    while i < |rules|
      invariant 0 <= i <= |rules|
      invariant |ids| == i && |documents| == i && |metadatas| == i
      invariant forall j :: 0 <= j < i ==> ids[j] == rules[j].id
      invariant forall j :: 0 <= j < i ==> documents[j] == DocumentText(rules[j])
      invariant forall j :: 0 <= j < i ==> metadatas[j] == MetadataOf(rules[j])
    {
      var rule := rules[i];
      ids := ids + [rule.id];
      documents := documents + [rule.title + ". " + rule.content];
      metadatas := metadatas + [Metadata(rule.section, rule.kind, Join(rule.keywords, KeywordSeparator), rule.title)];
      i := i + 1;
    }
  }

  /** A document starts with its rule's title, so it contains it. */
  lemma DocumentStartsWithTitle(rule: Rule)
    ensures IsPrefix(rule.title, DocumentText(rule))
    ensures Contains(DocumentText(rule), rule.title)
  {
    ContainsInfix([], rule.title, ". " + rule.content);
    assert [] + rule.title + (". " + rule.content) == DocumentText(rule);
  }

  /** The joined keyword list is empty for no keywords, the keyword itself
      for one, and otherwise every keyword followed by `", "`, the last one
      excepted. */
  lemma KeywordsJoined(rule: Rule)
    ensures rule.keywords == [] ==> MetadataOf(rule).keywords == []
    ensures |rule.keywords| == 1 ==> MetadataOf(rule).keywords == rule.keywords[0]
    ensures forall k :: 0 <= k < |rule.keywords| ==> Contains(MetadataOf(rule).keywords, rule.keywords[k])
    ensures rule.keywords != [] ==>
      |MetadataOf(rule).keywords| == |Concat(rule.keywords)| + 2 * (|rule.keywords| - 1)
    ensures MetadataOf(rule).keywords == Concat(Gaps(rule.keywords, KeywordSeparator))
  {
    JoinGaps(rule.keywords, KeywordSeparator);
    forall k | 0 <= k < |rule.keywords|
      ensures Contains(MetadataOf(rule).keywords, rule.keywords[k])
    {
      JoinContainsEach(rule.keywords, KeywordSeparator, k);
    }
    if rule.keywords != [] {
      JoinLength(rule.keywords, KeywordSeparator);
    }
  }

  /** The two halves fit together: a document the store returns verbatim for
      a corpus rule is always mapped back to some corpus rule. */
  lemma StoredDocumentIsMatched(corpus: seq<Rule>, k: nat)
    requires k < |corpus|
    ensures Matched(corpus, DocumentText(corpus[k]))
  {
    DocumentStartsWithTitle(corpus[k]);
    assert Mentions(DocumentText(corpus[k]), corpus[k]);
  }
}

=== FILE: ranking.dfy ===
/** Lexical retrieval (`simple_search` in main.py): score every rule, drop the
    rules that score zero, sort the rest by relevance, highest first, keeping
    corpus order among equal relevance, and keep the first `n`. */
module Ranking {
  import opened Text
  import opened Rules
  import opened Scoring

  /** `m` pairs a rule of the corpus with its own positive score. */
  predicate ScoredFor(corpus: seq<Rule>, question: string, m: Match) {
    && m.rule in corpus
    && m.relevance == Score(question, m.rule)
    && 0.0 < m.relevance <= MaxRelevance
  }

  /** The rules of `corpus` that score above zero for `question`, each with
      its score, in corpus order. */
  function Scored(corpus: seq<Rule>, question: string): (r: seq<Match>)
    ensures |r| <= |corpus|
    ensures forall i :: 0 <= i < |r| ==> ScoredFor(corpus, question, r[i])
    decreases |corpus|
  {
    if corpus == [] then []
    else
      var rest := Scored(corpus[1..], question);
      var s := Score(question, corpus[0]);
      if s > 0.0 then [Match(corpus[0], s)] + rest else rest
  }

  /** Scoring goes through the corpus in order, one rule at a time: the
      candidates of a concatenation are those of its parts, in that order,
      duplicates included. */
  lemma {:induction false} ScoredAppend(a: seq<Rule>, b: seq<Rule>, question: string)
    ensures Scored(a + b, question) == Scored(a, question) + Scored(b, question)
    decreases |a|
  {
    if a == [] {
      assert a + b == b;
    } else {
      assert (a + b)[0] == a[0] && (a + b)[1..] == a[1..] + b;
      ScoredAppend(a[1..], b, question);
    }
  }

  /** Every rule of the corpus that scores above zero is a candidate, with
      its score. */
  lemma {:induction false} ScoredComplete(corpus: seq<Rule>, question: string)
    ensures forall rule :: rule in corpus && Score(question, rule) > 0.0 ==>
      Match(rule, Score(question, rule)) in Scored(corpus, question)
    decreases |corpus|
  {
    if corpus != [] {
      ScoredComplete(corpus[1..], question);
      assert corpus == [corpus[0]] + corpus[1..];
    }
  }

  /** A single rule is a candidate exactly when it scores above zero, and
      then with its own score. */
  lemma ScoredSingle(rule: Rule, question: string)
    ensures Score(question, rule) > 0.0 ==> Scored([rule], question) == [Match(rule, Score(question, rule))]
    ensures Score(question, rule) == 0.0 ==> Scored([rule], question) == []
  {
    assert [rule][1..] == [];
  }

  /** Non-increasing relevance from left to right. */
  predicate SortedDesc(xs: seq<Match>) {
    forall i, j :: 0 <= i < j < |xs| ==> xs[i].relevance >= xs[j].relevance
  }

  /** The entries of `xs` whose relevance is exactly `v`, in order. */
  function FilterRel(xs: seq<Match>, v: real): seq<Match>
    decreases |xs|
  {
    if xs == [] then []
    else if xs[0].relevance == v then [xs[0]] + FilterRel(xs[1..], v)
    else FilterRel(xs[1..], v)
  }

  /** Puts `m` in front of the first entry that is not more relevant than it,
      so `m` precedes the entries of equal relevance already placed. */
  function Insert(m: Match, ys: seq<Match>): seq<Match>
    decreases |ys|
  {
    if ys == [] || ys[0].relevance <= m.relevance then [m] + ys
    else [ys[0]] + Insert(m, ys[1..])
  }

  lemma {:induction false} InsertSorted(m: Match, ys: seq<Match>)
    requires SortedDesc(ys)
    ensures SortedDesc(Insert(m, ys))
    ensures Insert(m, ys) != [] && (Insert(m, ys)[0] == m || Insert(m, ys)[0] == ys[0])
    decreases |ys|
  {
    if ys == [] || ys[0].relevance <= m.relevance {
    } else {
      InsertSorted(m, ys[1..]);
    }
  }

  lemma {:induction false} InsertPermutes(m: Match, ys: seq<Match>)
    ensures multiset(Insert(m, ys)) == multiset(ys) + multiset{m}
    decreases |ys|
  {
    if ys == [] || ys[0].relevance <= m.relevance {
    } else {
      InsertPermutes(m, ys[1..]);
      assert ys == [ys[0]] + ys[1..];
    }
  }

  lemma {:induction false} InsertKeepsTies(m: Match, ys: seq<Match>, v: real)
    requires SortedDesc(ys)
    ensures FilterRel(Insert(m, ys), v) == FilterRel([m] + ys, v)
    decreases |ys|
  {
    if ys == [] || ys[0].relevance <= m.relevance {
    } else {
      InsertKeepsTies(m, ys[1..], v);
      var ins := Insert(m, ys[1..]);
      assert ([ys[0]] + ins)[1..] == ins;
      assert ([m] + ys)[1..] == ys;
      assert ([m] + ys[1..])[1..] == ys[1..];
    }
  }

  /** A stable insertion sort by relevance, highest first (Python's
      `sorted(..., reverse=True)`). */
  function SortDesc(xs: seq<Match>): seq<Match>
    decreases |xs|
  {
    if xs == [] then [] else Insert(xs[0], SortDesc(xs[1..]))
  }

  lemma {:induction false} SortDescOrdered(xs: seq<Match>)
    ensures SortedDesc(SortDesc(xs))
    ensures multiset(SortDesc(xs)) == multiset(xs)
    decreases |xs|
  {
    if xs != [] {
      SortDescOrdered(xs[1..]);
      InsertSorted(xs[0], SortDesc(xs[1..]));
      InsertPermutes(xs[0], SortDesc(xs[1..]));
      assert xs == [xs[0]] + xs[1..];
    }
  }

  lemma {:induction false} SortDescTies(xs: seq<Match>, v: real)
    ensures FilterRel(SortDesc(xs), v) == FilterRel(xs, v)
    decreases |xs|
  {
    if xs != [] {
      var rest := SortDesc(xs[1..]);
      SortDescTies(xs[1..], v);
      SortDescOrdered(xs[1..]);
      InsertKeepsTies(xs[0], rest, v);
      assert ([xs[0]] + rest)[1..] == rest;
    }
  }

  /** The sort is ordered, is a permutation of its input, and keeps the input
      order among entries of equal relevance. */
  lemma SortDescCorrect(xs: seq<Match>)
    ensures SortedDesc(SortDesc(xs))
    ensures multiset(SortDesc(xs)) == multiset(xs)
    ensures forall v :: FilterRel(SortDesc(xs), v) == FilterRel(xs, v)
  {
    SortDescOrdered(xs);
    forall v ensures FilterRel(SortDesc(xs), v) == FilterRel(xs, v) {
      SortDescTies(xs, v);
    }
  }

  /** `xs[:n]` */
  function Take<T(==)>(xs: seq<T>, n: nat): (r: seq<T>)
    ensures |r| <= n && IsPrefix(r, xs)
    ensures |r| == n || r == xs
  {
    if n < |xs| then xs[..n] else xs
  }

  lemma TakeMultiset<T>(xs: seq<T>, n: nat)
    ensures multiset(Take(xs, n)) <= multiset(xs)
    ensures n >= |xs| ==> multiset(Take(xs, n)) == multiset(xs)
  {
    if n < |xs| {
      assert xs == xs[..n] + xs[n..];
      assert multiset(xs) == multiset(xs[..n]) + multiset(xs[n..]);
    }
  }

  /** Every rule that scores above zero, most relevant first. */
  function Ranked(corpus: seq<Rule>, question: string): (r: seq<Match>)
    ensures SortedDesc(r)
    ensures forall i :: 0 <= i < |r| ==> ScoredFor(corpus, question, r[i])
  {
    var scored := Scored(corpus, question);
    var ranked := SortDesc(scored);
    SortDescCorrect(scored);
    forall i | 0 <= i < |ranked|
      ensures ScoredFor(corpus, question, ranked[i])
    {
      assert ranked[i] in multiset(scored);
      var j :| 0 <= j < |scored| && scored[j] == ranked[i];
      assert ScoredFor(corpus, question, scored[j]);
    }
    ranked
  }

  /** `simple_search(question, n)`: at most `n` scored rules of the corpus,
      each with its own score in (0, 1], most relevant first. */
  function SimpleSearch(corpus: seq<Rule>, question: string, n: nat): (r: seq<Match>)
    ensures |r| <= n
    ensures forall i :: 0 <= i < |r| ==>
      && r[i].rule in corpus
      && r[i].relevance == Score(question, r[i].rule)
      && 0.0 < r[i].relevance <= MaxRelevance
    ensures SortedDesc(r)
  {
    var ranked := Ranked(corpus, question);
    var r := Take(ranked, n);
    assert forall i :: 0 <= i < |r| ==> r[i] == ranked[i];
    r
  }

  /** The lexical search comes back empty exactly when `n` is zero or no rule
      of the corpus scores. */
  lemma SimpleSearchEmptyIff(corpus: seq<Rule>, question: string, n: nat)
    ensures SimpleSearch(corpus, question, n) == [] <==>
      n == 0 || forall rule :: rule in corpus ==> Score(question, rule) == 0.0
  {
    var scored := Scored(corpus, question);
    var ranked := Ranked(corpus, question);
    SortDescCorrect(scored);
    ScoredComplete(corpus, question);
    if scored != [] {
      assert scored[0] in multiset(ranked);
      assert |ranked| > 0;
      assert scored[0].rule in corpus && Score(question, scored[0].rule) > 0.0;
    } else {
      assert |ranked| == 0;
    }
  }

  lemma {:induction false} FilterRelPrefix(a: seq<Match>, b: seq<Match>, v: real)
    requires IsPrefix(a, b)
    ensures IsPrefix(FilterRel(a, v), FilterRel(b, v))
    decreases |a|
  {
    if a != [] {
      FilterRelPrefix(a[1..], b[1..], v);
    }
  }

  /** Ties keep corpus order: for every relevance value, the results carrying
      it are the first of the corpus-order rules scoring exactly that value. */
  lemma SimpleSearchStable(corpus: seq<Rule>, question: string, n: nat, v: real)
    ensures IsPrefix(FilterRel(SimpleSearch(corpus, question, n), v), FilterRel(Scored(corpus, question), v))
  {
    var ranked := Ranked(corpus, question);
    SortDescCorrect(Scored(corpus, question));
    FilterRelPrefix(SimpleSearch(corpus, question, n), ranked, v);
  }

  /** The cut keeps every copy it can: the result holds `min(n, k)` entries,
      where `k` counts the scored records, duplicates included. */
  lemma SimpleSearchCount(corpus: seq<Rule>, question: string, n: nat)
    ensures |SimpleSearch(corpus, question, n)| ==
      if n < |Scored(corpus, question)| then n else |Scored(corpus, question)|
  {
    var scored := Scored(corpus, question);
    SortDescCorrect(scored);
    assert |multiset(SortDesc(scored))| == |multiset(scored)|;
  }

  /** Each entry of the result is a scored record, no record more often than
      it was scored, and with room for all of them every scored record comes
      back as often as it scored. */
  lemma SimpleSearchCopies(corpus: seq<Rule>, question: string, n: nat)
    ensures multiset(SimpleSearch(corpus, question, n)) <= multiset(Scored(corpus, question))
    ensures n >= |Scored(corpus, question)| ==>
      multiset(SimpleSearch(corpus, question, n)) == multiset(Scored(corpus, question))
  {
    var scored := Scored(corpus, question);
    var ranked := Ranked(corpus, question);
    TakeMultiset(ranked, n);
    SortDescCorrect(scored);
  }

  /** Nothing relevant is lost unless the result is full: a scoring rule that
      is missing from the result means `n` results were returned, each at
      least as relevant as the missing rule. */
  lemma SimpleSearchComplete(corpus: seq<Rule>, question: string, n: nat, rule: Rule)
    requires rule in corpus && Score(question, rule) > 0.0
    requires Match(rule, Score(question, rule)) !in SimpleSearch(corpus, question, n)
    ensures |SimpleSearch(corpus, question, n)| == n
    ensures forall i :: 0 <= i < n ==> SimpleSearch(corpus, question, n)[i].relevance >= Score(question, rule)
  {
    var m := Match(rule, Score(question, rule));
    var ranked := Ranked(corpus, question);
    SortDescCorrect(Scored(corpus, question));
    ScoredComplete(corpus, question);
    assert m in multiset(Scored(corpus, question));
    assert m in ranked;
    var j :| 0 <= j < |ranked| && ranked[j] == m;
    var r := SimpleSearch(corpus, question, n);
    assert n < |ranked| && r == ranked[..n];
    assert j >= n;
  }
}

=== FILE: retrieval.dfy ===
/** Retrieval with fallback (`chroma_search` and `search_pdd` in main.py):
    the hits of the vector store, mapped back onto corpus rules, are used when
    there are any; otherwise the lexical search runs. The vector store itself
    is not modelled: what it returned for the question is an input. */
module Retrieval {
  import opened Text
  import opened Rules
  import opened Scoring
  import opened Ranking

  /** What one vector-store query returned: the documents for the question
      (`documents[0]`) and their distances (`distances[0]`), the latter `None`
      when the store sent no distances. */
  datatype Response = Response(documents: seq<string>, distances: Option<seq<real>>)

  /** The relevance of a semantic hit, `1 - min(distance, 1.0)`: never
      negative, zero from distance 1 on, and at most 1 for a non-negative
      distance. */
  function HitRelevance(distance: real): (r: real)
    ensures r >= 0.0
    ensures distance >= 0.0 ==> r <= 1.0
    ensures distance >= 1.0 ==> r == 0.0
    ensures distance < 1.0 ==> r > 0.0
  {
    1.0 - Min(distance, 1.0)
  }

  /** A retrieved document stands for `rule` when the rule's content or its
      title occurs in it. */
  predicate Mentions(doc: string, rule: Rule) {
    Contains(doc, rule.content) || Contains(doc, rule.title)
  }

  /** The index of the first rule at or after `i` that `doc` mentions. */
  function FindRule(corpus: seq<Rule>, doc: string, i: nat): (r: Option<nat>)
    requires i <= |corpus|
    ensures r.Some? ==>
      && i <= r.value < |corpus|
      && Mentions(doc, corpus[r.value])
      && forall j :: i <= j < r.value ==> !Mentions(doc, corpus[j])
    ensures r.None? ==> forall j :: i <= j < |corpus| ==> !Mentions(doc, corpus[j])
    decreases |corpus| - i
  {
    if i == |corpus| then None
    else if Mentions(doc, corpus[i]) then Some(i)
    else FindRule(corpus, doc, i + 1)
  }

  predicate Matched(corpus: seq<Rule>, doc: string) {
    FindRule(corpus, doc, 0).Some?
  }

  /** The distance the mapping reads for document `j`: `distances[0][j]`,
      or 1.0 when the store sent no distances. */
  function DistanceAt(distances: Option<seq<real>>, j: nat): real
    requires distances.None? || j < |distances.value|
  {
    if distances.Some? then distances.value[j] else 1.0
  }

  /** The mapping loop of `chroma_search` from document `i` on: each
      document mentioning some rule yields that rule with the relevance of
      the document's distance (1.0 when there are no distances); documents
      mentioning no rule are skipped. `None` stands for the IndexError raised
      when a matched document has no distance, which makes `chroma_search`
      return nothing at all. */
  function MapDocs(corpus: seq<Rule>, docs: seq<string>, distances: Option<seq<real>>, i: nat)
    : (r: Option<seq<Match>>)
    requires i <= |docs|
    ensures r.Some? ==> |r.value| <= |docs| - i
    ensures r.Some? ==> forall k :: 0 <= k < |r.value| ==>
      r.value[k].rule in corpus && r.value[k].relevance >= 0.0
    ensures r.Some? && distances.None? ==> forall k :: 0 <= k < |r.value| ==>
      r.value[k].relevance == 0.0
    ensures r.Some? && distances.Some? && (forall j :: 0 <= j < |distances.value| ==> distances.value[j] >= 0.0)
      ==> forall k :: 0 <= k < |r.value| ==> r.value[k].relevance <= 1.0
    ensures r.Some? && (forall j :: i <= j < |docs| ==> Matched(corpus, docs[j])) ==> |r.value| == |docs| - i
    ensures r.None? <==>
      distances.Some? && exists j :: i <= j < |docs| && |distances.value| <= j && Matched(corpus, docs[j])
    decreases |docs| - i
  {
    if i == |docs| then Some([])
    else
      var rest := MapDocs(corpus, docs, distances, i + 1);
      match FindRule(corpus, docs[i], 0)
      case None => rest
      case Some(k) =>
        if distances.Some? && i >= |distances.value| then None
        else
          match rest
          case None => None
          case Some(hits) => Some([Match(corpus[k], HitRelevance(DistanceAt(distances, i)))] + hits)
  }

  /** The store supplies a distance for every document that mentions a rule,
      so reading them raises no IndexError. */
  predicate DistancesCover(corpus: seq<Rule>, docs: seq<string>, distances: Option<seq<real>>) {
    distances.Some? ==> forall j :: 0 <= j < |docs| && Matched(corpus, docs[j]) ==> j < |distances.value|
  }

  /** The hit document `j` yields: the first rule it mentions, with the
      relevance of its distance. */
  function HitAt(corpus: seq<Rule>, docs: seq<string>, distances: Option<seq<real>>, j: nat): Match
    requires j < |docs| && Matched(corpus, docs[j])
    requires distances.None? || j < |distances.value|
  {
    Match(corpus[FindRule(corpus, docs[j], 0).value], HitRelevance(DistanceAt(distances, j)))
  }

  /** The positions, from `i` on, of the documents that mention some rule:
      each matched document exactly once, in increasing order. */
  function MatchedFrom(corpus: seq<Rule>, docs: seq<string>, i: nat): (idx: seq<nat>)
    requires i <= |docs|
    ensures forall k :: 0 <= k < |idx| ==> i <= idx[k] < |docs| && Matched(corpus, docs[idx[k]])
    ensures forall k, l :: 0 <= k < l < |idx| ==> idx[k] < idx[l]
    decreases |docs| - i
  {
    if i == |docs| then []
    else (if Matched(corpus, docs[i]) then [i] else []) + MatchedFrom(corpus, docs, i + 1)
  }

  /** No matched document is left out of `MatchedFrom`. */
  lemma {:induction false} MatchedFromComplete(corpus: seq<Rule>, docs: seq<string>, i: nat, j: nat)
    requires i <= j < |docs| && Matched(corpus, docs[j])
    ensures j in MatchedFrom(corpus, docs, i)
    decreases j - i
  {
    if i < j {
      MatchedFromComplete(corpus, docs, i + 1, j);
      var rest := MatchedFrom(corpus, docs, i + 1);
      assert MatchedFrom(corpus, docs, i) == (if Matched(corpus, docs[i]) then [i] else []) + rest;
    }
  }

  /** One step of the mapping that did not raise: the rest did not raise
      either, and document `i` contributes its hit exactly when it is
      matched, in which case its distance exists. */
  lemma MapDocsStep(corpus: seq<Rule>, docs: seq<string>, distances: Option<seq<real>>, i: nat)
    requires i < |docs|
    requires MapDocs(corpus, docs, distances, i).Some?
    ensures MapDocs(corpus, docs, distances, i + 1).Some?
    ensures Matched(corpus, docs[i]) ==> distances.None? || i < |distances.value|
    ensures Matched(corpus, docs[i]) ==>
      MapDocs(corpus, docs, distances, i).value
        == [HitAt(corpus, docs, distances, i)] + MapDocs(corpus, docs, distances, i + 1).value
    ensures !Matched(corpus, docs[i]) ==>
      MapDocs(corpus, docs, distances, i).value == MapDocs(corpus, docs, distances, i + 1).value
  {
  }

  lemma HitsCons(corpus: seq<Rule>, docs: seq<string>, distances: Option<seq<real>>, i: nat,
                 hits: seq<Match>, rest: seq<nat>)
    requires i < |docs| && Matched(corpus, docs[i]) && (distances.None? || i < |distances.value|)
    requires forall k :: 0 <= k < |rest| ==> rest[k] < |docs| && Matched(corpus, docs[rest[k]])
    requires |hits| == |rest|
    requires forall k :: 0 <= k < |rest| ==>
      (distances.None? || rest[k] < |distances.value|) && hits[k] == HitAt(corpus, docs, distances, rest[k])
    ensures forall k :: 0 <= k < |[i] + rest| ==>
      && (distances.None? || ([i] + rest)[k] < |distances.value|)
      && ([HitAt(corpus, docs, distances, i)] + hits)[k] == HitAt(corpus, docs, distances, ([i] + rest)[k])
  {
  }

  /** The mapping, when it does not raise, yields one hit per matched
      document, in document order: hit `k` is the first rule that the `k`-th
      matched document mentions, with relevance `1 - min(distance, 1.0)` of
      that document's distance. */
  lemma {:induction false} MapDocsHits(corpus: seq<Rule>, docs: seq<string>, distances: Option<seq<real>>, i: nat)
    requires i <= |docs|
    requires MapDocs(corpus, docs, distances, i).Some?
    ensures |MapDocs(corpus, docs, distances, i).value| == |MatchedFrom(corpus, docs, i)|
    ensures forall k :: 0 <= k < |MatchedFrom(corpus, docs, i)| ==>
      && (distances.None? || MatchedFrom(corpus, docs, i)[k] < |distances.value|)
      && MapDocs(corpus, docs, distances, i).value[k] == HitAt(corpus, docs, distances, MatchedFrom(corpus, docs, i)[k])
    decreases |docs| - i
  {
    if i < |docs| {
      MapDocsStep(corpus, docs, distances, i);
      MapDocsHits(corpus, docs, distances, i + 1);
      var r := MapDocs(corpus, docs, distances, i).value;
      var hits := MapDocs(corpus, docs, distances, i + 1).value;
      var idx := MatchedFrom(corpus, docs, i);
      var rest := MatchedFrom(corpus, docs, i + 1);
      if Matched(corpus, docs[i]) {
        assert idx == [i] + rest;
        HitsCons(corpus, docs, distances, i, hits, rest);
      } else {
        assert idx == rest && r == hits;
      }
    }
  }

  /** When every document mentions a rule, hit `k` comes from document `k`. */
  lemma MapDocsPointwise(corpus: seq<Rule>, docs: seq<string>, distances: Option<seq<real>>)
    requires forall j :: 0 <= j < |docs| ==> Matched(corpus, docs[j])
    requires MapDocs(corpus, docs, distances, 0).Some?
    ensures distances.Some? ==> |docs| <= |distances.value|
    ensures |MapDocs(corpus, docs, distances, 0).value| == |docs|
    ensures forall k :: 0 <= k < |docs| ==>
      MapDocs(corpus, docs, distances, 0).value[k]
        == Match(corpus[FindRule(corpus, docs[k], 0).value], HitRelevance(DistanceAt(distances, k)))
  {
    MapDocsHits(corpus, docs, distances, 0);
    AllMatched(corpus, docs, 0);
    var idx := MatchedFrom(corpus, docs, 0);
    if distances.Some? && |docs| > 0 {
      assert idx[|docs| - 1] == |docs| - 1;
    }
  }

  /** When every document from `i` on is matched, the matched positions are
      `i, i + 1, ..., |docs| - 1`. */
  lemma {:induction false} AllMatched(corpus: seq<Rule>, docs: seq<string>, i: nat)
    requires i <= |docs|
    requires forall j :: i <= j < |docs| ==> Matched(corpus, docs[j])
    ensures MatchedFrom(corpus, docs, i) == seq(|docs| - i, k requires 0 <= k < |docs| - i => i + k)
    decreases |docs| - i
  {
    if i < |docs| {
      AllMatched(corpus, docs, i + 1);
    }
  }

  /** `chroma_search`: the mapped hits, or nothing when the store is absent or
      failed (`response` is `None`) or the mapping raised. */
  function ChromaSearch(corpus: seq<Rule>, response: Option<Response>): (r: seq<Match>)
    ensures response.None? ==> r == []
    ensures response.Some? ==> |r| <= |response.value.documents|
    ensures forall k :: 0 <= k < |r| ==> r[k].rule in corpus && r[k].relevance >= 0.0
    ensures response.Some? && !DistancesCover(corpus, response.value.documents, response.value.distances)
      ==> r == []
  {
    match response
    case None => []
    case Some(resp) =>
      match MapDocs(corpus, resp.documents, resp.distances, 0)
      case None => []
      case Some(hits) => hits
  }

  /** With a store answer whose distances cover every matched document, the
      hits are exactly one per matched document, in document order: the
      first rule it mentions, with the relevance of its distance. */
  lemma ChromaSearchHits(corpus: seq<Rule>, resp: Response)
    requires DistancesCover(corpus, resp.documents, resp.distances)
    ensures |ChromaSearch(corpus, Some(resp))| == |MatchedFrom(corpus, resp.documents, 0)|
    ensures forall k :: 0 <= k < |MatchedFrom(corpus, resp.documents, 0)| ==>
      && (resp.distances.None? || MatchedFrom(corpus, resp.documents, 0)[k] < |resp.distances.value|)
      && ChromaSearch(corpus, Some(resp))[k]
         == HitAt(corpus, resp.documents, resp.distances, MatchedFrom(corpus, resp.documents, 0)[k])
  {
    MapDocsHits(corpus, resp.documents, resp.distances, 0);
  }

  /** `search_pdd`: the semantic hits when there are any, otherwise the
      lexical search. Every entry is a corpus rule with non-negative
      relevance, and there are at most `n` of them unless they came from the
      store. */
  function SearchPdd(corpus: seq<Rule>, semantic: Option<Response>, question: string, n: nat)
    : (r: seq<Match>)
    ensures semantic.None? ==> r == SimpleSearch(corpus, question, n)
    ensures ChromaSearch(corpus, semantic) != [] ==> r == ChromaSearch(corpus, semantic)
    ensures ChromaSearch(corpus, semantic) == [] ==> r == SimpleSearch(corpus, question, n)
    ensures forall k :: 0 <= k < |r| ==> r[k].rule in corpus && r[k].relevance >= 0.0
    ensures |r| <= n || (semantic.Some? && |r| <= |semantic.value.documents|)
  {
    var hits := ChromaSearch(corpus, semantic);
    if hits != [] then hits else SimpleSearch(corpus, question, n)
  }

  /** Retrieval finds nothing exactly when the store gave no usable hit and
      no rule scores lexically (or `n` is zero). */
  lemma SearchPddEmptyIff(corpus: seq<Rule>, semantic: Option<Response>, question: string, n: nat)
    ensures SearchPdd(corpus, semantic, question, n) == [] <==>
      && ChromaSearch(corpus, semantic) == []
      && (n == 0 || forall rule :: rule in corpus ==> Score(question, rule) == 0.0)
  {
    SimpleSearchEmptyIff(corpus, question, n);
  }

  /** A store that answers with documents but an empty distance list makes
      the mapping raise as soon as a document mentions a rule; the failure is
      swallowed and the lexical search answers instead. */
  lemma MissingDistanceFallsBack(corpus: seq<Rule>, docs: seq<string>, question: string, n: nat)
    requires exists j :: 0 <= j < |docs| && Matched(corpus, docs[j])
    ensures SearchPdd(corpus, Some(Response(docs, Some([]))), question, n)
      == SimpleSearch(corpus, question, n)
  {
  }
}

=== FILE: rules.dfy ===
/** Values shared by every stage of the pipeline: the optional value used for
    the absent external collaborators, and the rule record of the corpus. */
module Rules {

  datatype Option<+T> = None | Some(value: T)

  /** One traffic rule of the corpus, as stored in the rules JSON file. The
      record's `type` field is called `kind` here, `type` being a keyword. */
  datatype Rule = Rule(
    id: string,
    section: string,
    kind: string,
    title: string,
    content: string,
    keywords: seq<string>)

  /** A rule together with the relevance a retrieval stage gave it. */
  datatype Match = Match(rule: Rule, relevance: real)
}

=== FILE: scoring.dfy ===
/** The lexical relevance score of one rule against a question
    (`simple_search` in main.py, per rule). */
module Scoring {
  import opened Text
  import opened Rules

  const KeywordWeight: real := 0.3
  const TitleBonus: real := 0.5
  const ContentBonus: real := 0.2
  const MaxRelevance: real := 1.0

  /** How many keywords, counted with repetition, have a lower case that occurs
      in the lower-cased question `ql`. */
  function KeywordHits(keywords: seq<string>, ql: string): (k: nat)
    ensures k <= |keywords|
    ensures k == 0 <==> forall i :: 0 <= i < |keywords| ==> !Contains(ql, Lower(keywords[i]))
    ensures k == |keywords| <==> forall i :: 0 <= i < |keywords| ==> Contains(ql, Lower(keywords[i]))
    decreases |keywords|
  {
    if keywords == [] then 0
    else
      var last := keywords[|keywords| - 1];
      KeywordHits(keywords[..|keywords| - 1], ql) + (if Contains(ql, Lower(last)) then 1 else 0)
  }

  function Min(a: real, b: real): real {
    if a <= b then a else b
  }

  /** Some token occurs in `ql`: Python's `any(word in ql for word in tokens)`. */
  predicate AnyTokenIn(tokens: seq<string>, ql: string) {
    exists i :: 0 <= i < |tokens| && Contains(ql, tokens[i])
  }

  predicate TitleMatches(rule: Rule, ql: string) {
    AnyTokenIn(Split(Lower(rule.title)), ql)
  }

  predicate ContentMatches(rule: Rule, ql: string) {
    AnyTokenIn(Split(Lower(rule.content)), ql)
  }

  /** The score before clamping: 0.3 per matching keyword, a flat 0.5 when
      some title token matches, a flat 0.2 when some content token matches. */
  function RawScore(question: string, rule: Rule): real {
    var ql := Lower(question);
    (KeywordHits(rule.keywords, ql) as real) * KeywordWeight
      + (if TitleMatches(rule, ql) then TitleBonus else 0.0)
      + (if ContentMatches(rule, ql) then ContentBonus else 0.0)
  }

  /** The lexical relevance of `rule` to `question`: the raw score clamped to
      1.0, so it lies in [0, 1], and it is never a positive value below the
      smallest bonus. */
  function Score(question: string, rule: Rule): (r: real)
    ensures 0.0 <= r <= MaxRelevance
    ensures r > 0.0 ==> r >= ContentBonus
  {
    var raw := RawScore(question, rule);
    if raw <= MaxRelevance then raw else MaxRelevance
  }

  /** `any(word in ql for word in tokens)`, scanning left to right. */
  method AnyTokenOccurs(tokens: seq<string>, ql: string) returns (found: bool)
    ensures found <==> AnyTokenIn(tokens, ql)
  {
    found := false;
    var i := 0;
    while i < |tokens| && !found
      invariant 0 <= i <= |tokens|
      invariant found <==> exists j :: 0 <= j < i && Contains(ql, tokens[j])
    {
      if Contains(ql, tokens[i]) {
        found := true;
      }
      i := i + 1;
    }
  }

  /** The body of the loop over the corpus in `simple_search`, computing one
      rule's clamped relevance the way the source does. */
  method ScoreRule(question: string, rule: Rule) returns (relevance: real)
    ensures relevance == Score(question, rule)
  {
    var ql := Lower(question);
    var keywords := rule.keywords;
    relevance := 0.0;
    var i := 0;
    while i < |keywords|
      invariant 0 <= i <= |keywords|
      invariant relevance == KeywordWeight * (KeywordHits(keywords[..i], ql) as real)
    {
      assert keywords[..i + 1][..i] == keywords[..i];
      if Contains(ql, Lower(keywords[i])) {
        relevance := relevance + KeywordWeight;
      }
      i := i + 1;
    }
    assert keywords[..i] == keywords;
    var titleHit := AnyTokenOccurs(Split(Lower(rule.title)), ql);
    if titleHit {
      relevance := relevance + TitleBonus;
    }
    var contentHit := AnyTokenOccurs(Split(Lower(rule.content)), ql);
    if contentHit {
      relevance := relevance + ContentBonus;
    }
    if relevance > MaxRelevance {
      relevance := MaxRelevance;
    }
  }

  /** A rule scores zero exactly when none of its keywords, title tokens or
      content tokens occurs in the lower-cased question. */
  lemma ScoreZeroIff(question: string, rule: Rule)
    ensures Score(question, rule) == 0.0 <==>
      && (forall i :: 0 <= i < |rule.keywords| ==> !Contains(Lower(question), Lower(rule.keywords[i])))
      && !TitleMatches(rule, Lower(question))
      && !ContentMatches(rule, Lower(question))
  {
  }

  /** The signals add up: every matching keyword adds 0.3 and a matching title
      token 0.5 until the clamp at 1.0. */
  lemma ScoreLowerBounds(question: string, rule: Rule)
    ensures Score(question, rule) >= Min(KeywordWeight * (KeywordHits(rule.keywords, Lower(question)) as real), MaxRelevance)
    ensures TitleMatches(rule, Lower(question)) ==> Score(question, rule) >= TitleBonus
    ensures ContentMatches(rule, Lower(question)) ==> Score(question, rule) >= ContentBonus
  {
  }

  /** Case does not matter: a question scores the same as its lower case. */
  lemma ScoreIgnoresCase(question: string, rule: Rule)
    ensures Score(Lower(question), rule) == Score(question, rule)
  {
    LowerIdempotent(question);
  }
}

=== FILE: service.dfy ===
/** The `/ask` endpoint and the `/metrics` counters of main.py as a state
    machine over the answer cache and its hit and miss counters. One request
    carries what the two external services would have said about it: the
    vector store's response (or `None`) and the generated reply (or `None`). */
module Service {
  import opened Text
  import opened Rules
  import opened Retrieval
  import opened Composer

  const MaxQuestionLength: nat := 500
  const TopN: nat := 3
  const BadRequest: nat := 400
  const EmptyDetail: string := "Question cannot be empty"
  const TooLongDetail: string := "Question too long (max 500 chars)"

  /** The process-wide cache and counters. */
  datatype State = State(cache: map<string, Answer>, hits: nat, misses: nat)

  const Initial: State := State(map[], 0, 0)

  datatype Request = Request(question: string, semantic: Option<Response>, generated: Option<string>)

  datatype Reply = Answered(answer: Answer) | Rejected(status: nat, detail: string)

  datatype Step = Step(reply: Reply, next: State)

  /** `get_cache_key`, with the MD5 digest left out: only equality of keys
      matters, and the digest is taken to be injective. */
  function CacheKey(question: string): string {
    Strip(Lower(question))
  }

  /** The stripped question is neither empty nor longer than 500 characters. */
  predicate ValidQuestion(question: string) {
    0 < |Strip(question)| <= MaxQuestionLength
  }

  /** `ask_question` for one request against state `s`. */
  function Ask(corpus: seq<Rule>, s: State, req: Request): (step: Step)
    ensures Strip(req.question) == [] ==> step == Step(Rejected(BadRequest, EmptyDetail), s)
    ensures |Strip(req.question)| > MaxQuestionLength ==> step == Step(Rejected(BadRequest, TooLongDetail), s)
    ensures step.reply.Answered? <==> ValidQuestion(req.question)
    ensures ValidQuestion(req.question) && CacheKey(Strip(req.question)) in s.cache ==>
      step == Step(Answered(s.cache[CacheKey(Strip(req.question))]), s.(hits := s.hits + 1))
    ensures ValidQuestion(req.question) && CacheKey(Strip(req.question)) !in s.cache ==>
      && step.next.hits == s.hits
      && step.next.misses == s.misses + 1
      && step.next.cache == s.cache[CacheKey(Strip(req.question)) := step.reply.answer]
      && step.reply.answer
         == Compose(SearchPdd(corpus, req.semantic, Strip(req.question), TopN), req.generated)
    ensures forall k :: k in s.cache ==> k in step.next.cache && step.next.cache[k] == s.cache[k]
  {
    var question := Strip(req.question);
    if question == [] then Step(Rejected(BadRequest, EmptyDetail), s)
    else if |question| > MaxQuestionLength then Step(Rejected(BadRequest, TooLongDetail), s)
    else
      var key := CacheKey(question);
      if key in s.cache then Step(Answered(s.cache[key]), s.(hits := s.hits + 1))
      else
        var results := SearchPdd(corpus, req.semantic, question, TopN);
        var answer := Compose(results, req.generated);
        Step(Answered(answer), State(s.cache[key := answer], s.hits, s.misses + 1))
  }

  /** The state after serving `reqs` in order. */
  function Run(corpus: seq<Rule>, s: State, reqs: seq<Request>): State
    decreases |reqs|
  {
    if reqs == [] then s else Run(corpus, Ask(corpus, s, reqs[0]).next, reqs[1..])
  }

  /** How many of `reqs` pass validation. */
  function Accepted(reqs: seq<Request>): nat
    decreases |reqs|
  {
    if reqs == [] then 0 else (if ValidQuestion(reqs[0].question) then 1 else 0) + Accepted(reqs[1..])
  }

  /** What a reachable state satisfies: no more entries than misses, every
      key already normalised, every cached confidence in [0, 1]. */
  ghost predicate Invariant(s: State) {
    && |s.cache| <= s.misses
    && (forall k :: k in s.cache ==> CacheKey(k) == k)
    && (forall k :: k in s.cache ==> 0.0 <= s.cache[k].confidence <= 1.0)
  }

  /** The `/metrics` reply. */
  datatype Metrics = Metrics(
    totalQueries: nat, cacheHits: nat, cacheMisses: nat, hitRatePercent: real, cacheSize: nat)

  /** `get_metrics`, without the rounding of the hit rate to two decimals. */
  function GetMetrics(s: State): (m: Metrics)
    ensures m.totalQueries == m.cacheHits + m.cacheMisses
    ensures m.cacheHits == s.hits && m.cacheMisses == s.misses && m.cacheSize == |s.cache|
    ensures 0.0 <= m.hitRatePercent <= 100.0
    ensures m.hitRatePercent == 100.0 <==> s.hits > 0 && s.misses == 0
    ensures m.hitRatePercent == 0.0 <==> s.hits == 0
  {
    var total := s.hits + s.misses;
    var rate := if total > 0 then (s.hits as real) / (total as real) * 100.0 else 0.0;
    RateBounds(s.hits, total);
    Metrics(total, s.hits, s.misses, rate, |s.cache|)
  }

  lemma RateBounds(hits: nat, total: nat)
    requires hits <= total
    ensures total > 0 ==> 0.0 <= (hits as real) / (total as real) <= 1.0
    ensures total > 0 ==> ((hits as real) / (total as real) == 1.0 <==> hits == total)
    ensures total > 0 ==> ((hits as real) / (total as real) == 0.0 <==> hits == 0)
  {
  }

  // ---------------------------------------------------------------------
  // Properties

  /** The key depends on the lower-cased, stripped question only. */
  lemma CacheKeyOfStripped(question: string)
    ensures CacheKey(Strip(question)) == Lower(Strip(question))
    ensures CacheKey(question) == Lower(Strip(question))
  {
    StripLower(Strip(question));
    StripIdempotent(question);
    StripLower(question);
  }

  /** A key is its own key. */
  lemma CacheKeyIdempotent(question: string)
    ensures CacheKey(CacheKey(question)) == CacheKey(question)
  {
    var k := CacheKey(question);
    CacheKeyOfStripped(question);
    CacheKeyOfStripped(k);
    StripLower(question);
    StripIdempotent(Lower(question));
    LowerIdempotent(Strip(question));
    assert Strip(k) == k;
  }

  /** Questions that agree once lower-cased and stripped are answered from the
      same entry: after one of them has been answered, the other is a cache
      hit that returns the same answer, bumps `hits` by one and changes
      nothing else, whatever the external services would now say. */
  lemma SameKeyHitsCache(corpus: seq<Rule>, s: State, first: Request, second: Request)
    requires ValidQuestion(first.question)
    requires Lower(Strip(first.question)) == Lower(Strip(second.question))
    ensures var one := Ask(corpus, s, first);
            var two := Ask(corpus, one.next, second);
            two.reply == one.reply && two.next == one.next.(hits := one.next.hits + 1)
  {
    CacheKeyOfStripped(first.question);
    CacheKeyOfStripped(second.question);
    assert |Strip(second.question)| == |Lower(Strip(second.question))|;
  }

  /** Asking the same question twice: the second reply is the first, served
      from the cache. */
  lemma AskTwice(corpus: seq<Rule>, s: State, req: Request, again: Request)
    requires ValidQuestion(req.question) && again.question == req.question
    ensures var one := Ask(corpus, s, req);
            var two := Ask(corpus, one.next, again);
            two.reply == one.reply && two.next.hits == one.next.hits + 1
            && two.next.cache == one.next.cache
  {
    SameKeyHitsCache(corpus, s, req, again);
  }

  /** Every request keeps the invariant. */
  lemma AskPreservesInvariant(corpus: seq<Rule>, s: State, req: Request)
    requires Invariant(s)
    ensures Invariant(Ask(corpus, s, req).next)
  {
    var question := Strip(req.question);
    if ValidQuestion(req.question) && CacheKey(question) !in s.cache {
      var key := CacheKey(question);
      var results := SearchPdd(corpus, req.semantic, question, TopN);
      var answer := Compose(results, req.generated);
      CacheKeyIdempotent(question);
      assert 0.0 <= answer.confidence <= 1.0;
      InsertKeepsInvariant(s, key, answer);
    }
  }

  lemma InsertKeepsInvariant(s: State, key: string, answer: Answer)
    requires Invariant(s) && key !in s.cache && CacheKey(key) == key
    requires 0.0 <= answer.confidence <= 1.0
    ensures Invariant(State(s.cache[key := answer], s.hits, s.misses + 1))
  {
    assert s.cache[key := answer].Keys == s.cache.Keys + {key};
  }

  /** Over any run from a reachable state: every accepted request is
      counted exactly once as a hit or a miss, rejected ones not at all, and
      the invariant (so `cache_size <= misses`) still holds. */
  lemma {:induction false} RunAccounting(corpus: seq<Rule>, s: State, reqs: seq<Request>)
    requires Invariant(s)
    ensures Invariant(Run(corpus, s, reqs))
    ensures Run(corpus, s, reqs).hits + Run(corpus, s, reqs).misses == s.hits + s.misses + Accepted(reqs)
    decreases |reqs|
  {
    if reqs != [] {
      AskPreservesInvariant(corpus, s, reqs[0]);
      RunAccounting(corpus, Ask(corpus, s, reqs[0]).next, reqs[1..]);
    }
  }

  /** From a fresh process the metrics add up: total queries count the
      accepted requests and the cache never holds more entries than misses. */
  lemma MetricsAfterRun(corpus: seq<Rule>, reqs: seq<Request>)
    ensures GetMetrics(Run(corpus, Initial, reqs)).totalQueries == Accepted(reqs)
    ensures GetMetrics(Run(corpus, Initial, reqs)).cacheSize <= GetMetrics(Run(corpus, Initial, reqs)).cacheMisses
  {
    RunAccounting(corpus, Initial, reqs);
  }

  /** A rejected request leaves the whole state alone. */
  lemma RejectedChangesNothing(corpus: seq<Rule>, s: State, req: Request)
    requires !ValidQuestion(req.question)
    ensures Ask(corpus, s, req).next == s
    ensures Ask(corpus, s, req).reply.status == BadRequest
  {
  }

  /** A miss on a question no rule matches and the store has no hits for
      caches and returns the fixed not-found answer: no sources, confidence 0. */
  lemma NoMatchIsNotFound(corpus: seq<Rule>, s: State, req: Request)
    requires ValidQuestion(req.question) && CacheKey(Strip(req.question)) !in s.cache
    requires ChromaSearch(corpus, req.semantic) == []
    requires forall rule :: rule in corpus ==> Scoring.Score(Strip(req.question), rule) == 0.0
    ensures Ask(corpus, s, req).reply == Answered(NotFound)
    ensures Ask(corpus, s, req).next.cache[CacheKey(Strip(req.question))] == NotFound
  {
    SearchPddEmptyIff(corpus, req.semantic, Strip(req.question), TopN);
  }
}

=== FILE: text.dfy ===
/** Python string primitives the service relies on: `str.isspace`, `str.lower`,
    `str.strip`, `str.split()` with no separator, `sep.join(parts)` and the
    substring test `t in s`. Strings are sequences of Unicode scalar values, so
    `|s|` is Python's `len(s)`.
 */
module Text {

  /** The characters for which Python's `str.isspace` holds. */
  predicate IsSpace(c: char) {
    || c == ' ' || c == '\t' || c == '\n' || c == '\r'
    || c == '\U{0B}' || c == '\U{0C}'
    || ('\U{1C}' <= c <= '\U{1F}')
    || c == '\U{85}' || c == '\U{A0}' || c == '\U{1680}'
    || ('\U{2000}' <= c <= '\U{200A}')
    || c == '\U{2028}' || c == '\U{2029}' || c == '\U{202F}' || c == '\U{205F}'
    || c == '\U{3000}'
  }

  predicate NoSpace(s: string) {
    forall i :: 0 <= i < |s| ==> !IsSpace(s[i])
  }

  /** Lower-case mapping of one character: Latin A-Z and the Cyrillic capitals
      U+0400..U+042F; every other character is its own lower case. */
  function LowerChar(c: char): (d: char)
    ensures IsSpace(d) <==> IsSpace(c)
    ensures c == d || ('A' <= c <= 'Z') || ('\U{400}' <= c <= '\U{42F}')
  {
    if 'A' <= c <= 'Z' then (c as int + 32) as char
    else if '\U{410}' <= c <= '\U{42F}' then (c as int + 32) as char
    else if '\U{400}' <= c <= '\U{40F}' then (c as int + 80) as char
    else c
  }

  /** `s.lower()` */
  function Lower(s: string): string {
    seq(|s|, i requires 0 <= i < |s| => LowerChar(s[i]))
  }

  /** Leading whitespace removed (`s.lstrip()`). */
  function TrimStart(s: string): string
    decreases |s|
  {
    if |s| > 0 && IsSpace(s[0]) then TrimStart(s[1..]) else s
  }

  /** Trailing whitespace removed (`s.rstrip()`). */
  function TrimEnd(s: string): string
    decreases |s|
  {
    if |s| > 0 && IsSpace(s[|s| - 1]) then TrimEnd(s[..|s| - 1]) else s
  }

  /** `s.strip()` */
  function Strip(s: string): string {
    TrimEnd(TrimStart(s))
  }

  /** The tokens of `s` when the token being built so far is `cur`: a
      whitespace character closes a non-empty token, runs of whitespace
      yield nothing. */
  function Tokens(s: string, cur: string): seq<string>
    decreases |s|
  {
    if s == [] then (if cur == [] then [] else [cur])
    else if IsSpace(s[0]) then
      (if cur == [] then Tokens(s[1..], []) else [cur] + Tokens(s[1..], []))
    else Tokens(s[1..], cur + [s[0]])
  }

  /** `s.split()`: maximal runs of non-whitespace, in order, with no empty
      tokens. */
  function Split(s: string): seq<string> {
    Tokens(s, [])
  }

  /** The characters of `s` that are not whitespace, in order. */
  function Squeeze(s: string): string
    decreases |s|
  {
    if s == [] then []
    else if IsSpace(s[0]) then Squeeze(s[1..])
    else [s[0]] + Squeeze(s[1..])
  }

  function Concat(parts: seq<string>): string
    decreases |parts|
  {
    if parts == [] then [] else parts[0] + Concat(parts[1..])
  }

  /** Each part followed by `sep`, except the last. */
  function Gaps(parts: seq<string>, sep: string): seq<string> {
    seq(|parts|, i requires 0 <= i < |parts| => parts[i] + (if i + 1 < |parts| then sep else []))
  }

  /** `sep.join(parts)` */
  function Join(parts: seq<string>, sep: string): string
    decreases |parts|
  {
    if |parts| == 0 then []
    else if |parts| == 1 then parts[0]
    else parts[0] + sep + Join(parts[1..], sep)
  }

  /** `p` is a prefix of `s` (`s.startswith(p)` on strings). */
  predicate IsPrefix<T(==)>(p: seq<T>, s: seq<T>) {
    |p| <= |s| && s[..|p|] == p
  }

  /** Python's `t in s` on strings: `t` occurs as a contiguous substring of
      `s` (the empty string occurs in every string). */
  predicate Contains(s: string, t: string)
    decreases |s|
  {
    IsPrefix(t, s) || (|s| > 0 && Contains(s[1..], t))
  }

  // ---------------------------------------------------------------------
  // Lemmas

  lemma {:induction false} ConcatAppend(a: seq<string>, b: seq<string>)
    ensures Concat(a + b) == Concat(a) + Concat(b)
    decreases |a|
  {
    if a != [] {
      assert (a + b)[1..] == a[1..] + b;
      ConcatAppend(a[1..], b);
    } else {
      assert a + b == b;
    }
  }

  lemma {:induction false} TokensLoseOnlySpaces(s: string, cur: string)
    ensures Concat(Tokens(s, cur)) == cur + Squeeze(s)
    decreases |s|
  {
    if s == [] {
      assert Concat([cur]) == cur;
    } else if IsSpace(s[0]) {
      TokensLoseOnlySpaces(s[1..], []);
      if cur != [] {
        ConcatAppend([cur], Tokens(s[1..], []));
        assert Concat([cur]) == cur;
      }
    } else {
      TokensLoseOnlySpaces(s[1..], cur + [s[0]]);
    }
  }

  /** Splitting on whitespace loses exactly the whitespace: the tokens, glued
      back together, are the non-whitespace characters of the input. */
  lemma SplitLosesOnlySpaces(s: string)
    ensures Concat(Split(s)) == Squeeze(s)
  {
    TokensLoseOnlySpaces(s, []);
  }

  lemma {:induction false} TokensWellFormed(s: string, cur: string)
    requires NoSpace(cur)
    ensures forall i :: 0 <= i < |Tokens(s, cur)| ==>
      |Tokens(s, cur)[i]| > 0 && NoSpace(Tokens(s, cur)[i])
    decreases |s|
  {
    if s == [] {
    } else if IsSpace(s[0]) {
      TokensWellFormed(s[1..], []);
    } else {
      TokensWellFormed(s[1..], cur + [s[0]]);
    }
  }

  /** Every token is non-empty and free of whitespace: like Python's
      `str.split()`, no empty strings are produced. */
  lemma SplitTokens(s: string)
    ensures forall i :: 0 <= i < |Split(s)| ==> |Split(s)[i]| > 0 && NoSpace(Split(s)[i])
  {
    TokensWellFormed(s, []);
  }

  lemma {:induction false} TokensOfWord(s: string, cur: string)
    requires NoSpace(s)
    requires cur + s != []
    ensures Tokens(s, cur) == [cur + s]
    decreases |s|
  {
    if s == [] {
      assert cur + s == cur;
    } else {
      assert (cur + [s[0]]) + s[1..] == cur + s;
      TokensOfWord(s[1..], cur + [s[0]]);
    }
  }

  /** A whitespace-free non-empty string is a single token. */
  lemma SplitSingleWord(s: string)
    requires s != [] && NoSpace(s)
    ensures Split(s) == [s]
  {
    TokensOfWord(s, []);
    assert [] + s == s;
  }

  lemma {:induction false} TokensSkipWord(w: string, s: string, cur: string)
    requires NoSpace(w)
    ensures Tokens(w + s, cur) == Tokens(s, cur + w)
    decreases |w|
  {
    if w == [] {
      assert w + s == s && cur + w == cur;
    } else {
      assert (w + s)[0] == w[0] && (w + s)[1..] == w[1..] + s;
      assert (cur + [w[0]]) + w[1..] == cur + w;
      TokensSkipWord(w[1..], s, cur + [w[0]]);
    }
  }

  /** `" ".join` and `split()` are inverse on lists of non-empty,
      whitespace-free words: each token of `split()` is a maximal run of
      non-whitespace, never a fragment of one. */
  lemma {:induction false} SplitJoin(ws: seq<string>)
    requires forall i :: 0 <= i < |ws| ==> ws[i] != [] && NoSpace(ws[i])
    ensures Split(Join(ws, " ")) == ws
    decreases |ws|
  {
    if |ws| == 1 {
      SplitSingleWord(ws[0]);
    } else if |ws| > 1 {
      var rest := Join(ws[1..], " ");
      SplitJoin(ws[1..]);
      assert Join(ws, " ") == ws[0] + (" " + rest);
      TokensSkipWord(ws[0], " " + rest, []);
      assert [] + ws[0] == ws[0];
      assert (" " + rest)[0] == ' ' && (" " + rest)[1..] == rest;
      assert ws == [ws[0]] + ws[1..];
    }
  }

  lemma {:induction false} TokensAtSpace(a: string, c: char, b: string, cur: string)
    requires IsSpace(c)
    ensures Tokens(a + [c] + b, cur) == Tokens(a, cur) + Tokens(b, [])
    decreases |a|
  {
    if a == [] {
      assert a + [c] + b == [c] + b;
      assert ([c] + b)[1..] == b;
    } else {
      assert (a + [c] + b)[0] == a[0];
      assert (a + [c] + b)[1..] == a[1..] + [c] + b;
      if IsSpace(a[0]) {
        TokensAtSpace(a[1..], c, b, []);
      } else {
        TokensAtSpace(a[1..], c, b, cur + [a[0]]);
      }
    }
  }

  /** Every whitespace character separates tokens: splitting at one splits
      the text before and after it independently. With `Split([]) == []` and
      `SplitSingleWord` this fixes `split()` on every string, leading
      whitespace and whitespace runs included. */
  lemma SplitAtSpace(a: string, c: char, b: string)
    requires IsSpace(c)
    ensures Split(a + [c] + b) == Split(a) + Split(b)
  {
    TokensAtSpace(a, c, b, []);
  }

  /** Lower-casing never creates or destroys whitespace, so it commutes with
      stripping. */
  lemma {:induction false} TrimStartLower(s: string)
    ensures TrimStart(Lower(s)) == Lower(TrimStart(s))
    decreases |s|
  {
    if |s| > 0 && IsSpace(s[0]) {
      assert Lower(s)[1..] == Lower(s[1..]);
      TrimStartLower(s[1..]);
    }
  }

  lemma {:induction false} TrimEndLower(s: string)
    ensures TrimEnd(Lower(s)) == Lower(TrimEnd(s))
    decreases |s|
  {
    if |s| > 0 && IsSpace(s[|s| - 1]) {
      assert Lower(s)[..|s| - 1] == Lower(s[..|s| - 1]);
      TrimEndLower(s[..|s| - 1]);
    }
  }

  lemma StripLower(s: string)
    ensures Strip(Lower(s)) == Lower(Strip(s))
  {
    TrimStartLower(s);
    TrimEndLower(TrimStart(s));
  }

  lemma LowerIdempotent(s: string)
    ensures Lower(Lower(s)) == Lower(s)
  {
    forall i | 0 <= i < |s|
      ensures LowerChar(LowerChar(s[i])) == LowerChar(s[i])
    {
    }
  }

  lemma {:induction false} TrimStartShape(s: string)
    ensures |TrimStart(s)| <= |s|
    ensures TrimStart(s) == s[|s| - |TrimStart(s)|..]
    ensures TrimStart(s) == [] || !IsSpace(TrimStart(s)[0])
    ensures forall k :: 0 <= k < |s| - |TrimStart(s)| ==> IsSpace(s[k])
    decreases |s|
  {
    if |s| > 0 && IsSpace(s[0]) {
      TrimStartShape(s[1..]);
      forall k | 0 < k < |s| - |TrimStart(s)|
        ensures IsSpace(s[k])
      {
        assert s[k] == s[1..][k - 1];
      }
    }
  }

  lemma {:induction false} TrimEndShape(s: string)
    ensures |TrimEnd(s)| <= |s|
    ensures TrimEnd(s) == s[..|TrimEnd(s)|]
    ensures TrimEnd(s) == [] || !IsSpace(TrimEnd(s)[|TrimEnd(s)| - 1])
    ensures forall k :: |TrimEnd(s)| <= k < |s| ==> IsSpace(s[k])
    decreases |s|
  {
    if |s| > 0 && IsSpace(s[|s| - 1]) {
      TrimEndShape(s[..|s| - 1]);
      forall k | |TrimEnd(s)| <= k < |s| - 1
        ensures IsSpace(s[k])
      {
        assert s[k] == s[..|s| - 1][k];
      }
    }
  }

  lemma {:induction false} TrimEndKeepsStart(s: string)
    requires s == [] || !IsSpace(s[0])
    ensures TrimEnd(s) == [] || !IsSpace(TrimEnd(s)[0])
    decreases |s|
  {
    if |s| > 0 && IsSpace(s[|s| - 1]) {
      TrimEndKeepsStart(s[..|s| - 1]);
    }
  }

  /** A stripped string neither starts nor ends with whitespace. */
  lemma StripShape(s: string)
    ensures |Strip(s)| <= |s|
    ensures Strip(s) == [] || (!IsSpace(Strip(s)[0]) && !IsSpace(Strip(s)[|Strip(s)| - 1]))
  {
    TrimStartShape(s);
    TrimEndShape(TrimStart(s));
    TrimEndKeepsStart(TrimStart(s));
  }

  /** `strip` cuts whitespace only, and only at the ends: the result is the
      slice `s[p..p + |Strip(s)|]` of the input, and every character before
      and after that slice is whitespace. */
  lemma StripKeepsMiddle(s: string) returns (p: nat)
    ensures p + |Strip(s)| <= |s|
    ensures s[p..p + |Strip(s)|] == Strip(s)
    ensures forall k :: 0 <= k < p ==> IsSpace(s[k])
    ensures forall k :: p + |Strip(s)| <= k < |s| ==> IsSpace(s[k])
  {
    var t := TrimStart(s);
    TrimStartShape(s);
    TrimEndShape(t);
    p := |s| - |t|;
    assert s[p..] == t;
    assert s[p..p + |Strip(s)|] == t[..|Strip(s)|];
    forall k | p + |Strip(s)| <= k < |s|
      ensures IsSpace(s[k])
    {
      assert s[k] == t[k - p];
    }
  }

  lemma StripIdempotent(s: string)
    ensures Strip(Strip(s)) == Strip(s)
  {
    var r := Strip(s);
    StripShape(s);
    assert TrimStart(r) == r;
    assert TrimEnd(r) == r;
  }

  lemma {:induction false} ContainsAt(s: string, t: string, i: nat)
    requires i + |t| <= |s| && s[i..i + |t|] == t
    ensures Contains(s, t)
    decreases i
  {
    if i > 0 {
      assert s[1..][i - 1..i - 1 + |t|] == s[i..i + |t|];
      ContainsAt(s[1..], t, i - 1);
    }
  }

  lemma ContainsInfix(a: string, t: string, b: string)
    ensures Contains(a + t + b, t)
  {
    assert (a + t + b)[|a|..|a| + |t|] == t;
    ContainsAt(a + t + b, t, |a|);
  }

  /** A substring occurrence is exactly a position where the text matches. */
  lemma {:induction false} ContainsWitness(s: string, t: string) returns (i: nat)
    requires Contains(s, t)
    ensures i + |t| <= |s| && s[i..i + |t|] == t
    decreases |s|
  {
    if IsPrefix(t, s) {
      i := 0;
    } else {
      var j := ContainsWitness(s[1..], t);
      assert s[1..][j..j + |t|] == s[j + 1..j + 1 + |t|];
      i := j + 1;
    }
  }

  lemma ContainsTransitive(s: string, t: string, u: string)
    requires Contains(s, t) && Contains(t, u)
    ensures Contains(s, u)
  {
    var i := ContainsWitness(s, t);
    var j := ContainsWitness(t, u);
    forall k | 0 <= k < |u|
      ensures s[i + j + k] == u[k]
    {
      assert s[i + j + k] == s[i..i + |t|][j + k] == t[j + k];
      assert t[j + k] == t[j..j + |u|][k];
    }
    assert s[i + j..i + j + |u|] == u;
    ContainsAt(s, u, i + j);
  }

  /** Every part of a join occurs in the joined string. */
  lemma {:induction false} JoinContainsEach(parts: seq<string>, sep: string, k: nat)
    requires k < |parts|
    ensures Contains(Join(parts, sep), parts[k])
    decreases |parts|
  {
    if |parts| == 1 {
      assert Join(parts, sep) == [] + parts[0] + [];
      ContainsInfix([], parts[0], []);
    } else if k == 0 {
      ContainsInfix([], parts[0], sep + Join(parts[1..], sep));
      assert [] + parts[0] + (sep + Join(parts[1..], sep)) == Join(parts, sep);
    } else {
      JoinContainsEach(parts[1..], sep, k - 1);
      var rest := Join(parts[1..], sep);
      var i := ContainsWitness(rest, parts[k]);
      var pre := parts[0] + sep;
      assert Join(parts, sep) == pre + rest;
      assert (pre + rest)[|pre| + i..|pre| + i + |parts[k]|] == rest[i..i + |parts[k]|];
      ContainsAt(Join(parts, sep), parts[k], |pre| + i);
    }
  }

  /** `sep.join(parts)` is every part followed by the separator, the last
      part excepted: the separators sit exactly between neighbours. */
  lemma {:induction false} JoinGaps(parts: seq<string>, sep: string)
    ensures Join(parts, sep) == Concat(Gaps(parts, sep))
    decreases |parts|
  {
    var g := Gaps(parts, sep);
    if |parts| == 1 {
      assert g[0] == parts[0] + [] == parts[0];
      assert g == [parts[0]];
      assert Concat(g) == parts[0] + Concat(g[1..]);
    } else if |parts| > 1 {
      JoinGaps(parts[1..], sep);
      assert g[1..] == Gaps(parts[1..], sep);
      assert g[0] == parts[0] + sep;
    }
  }

  /** The joined string is as long as its parts plus one separator between
      each neighbouring pair. */
  lemma {:induction false} JoinLength(parts: seq<string>, sep: string)
    requires |parts| > 0
    ensures |Join(parts, sep)| == |Concat(parts)| + (|parts| - 1) * |sep|
    decreases |parts|
  {
    if |parts| > 1 {
      JoinLength(parts[1..], sep);
    }
  }
}
